=== FILE: README.md ===
# RIS exchange: transaction settlement model

The RIS back end lets a user top up an RIS balance with a PIX payment in
BRL (a *recharge*), and spend that balance on a VES payout to a beneficiary
(a *withdrawal*). A transaction is settled by whichever of several
triggers gets to it: the user polling the payment status, the user
submitting a proof of payment, the payment provider's webhook, an operator
approving or rejecting the proof, an operator marking a withdrawal done,
or an operator replying to the team's WhatsApp thread with a receipt image.

This project models that settlement core as one sequential state:

- a map from transaction id to record (kind, status, `amount_input`,
  `amount_output`, owner, provider payment id, proof, rejection reason);
- a map from user id to account (e-mail, name, `balance_ris`, KYC status);
- the exchange-rate singleton.

Each route is a pure function from a ledger to an `Outcome`: the route's
reply (a value or one of its HTTP errors), the next ledger, and the
transaction whose `amount_output` it credited to a balance, if any (the
server logs each such credit). The payment provider is not modelled: its
verdict "approved" is a boolean input, and its answer to a charge request is
a `PixIntent` input. `Traces.Run` drives any sequence of route calls.

Files:

- `records.dfy` (`Records`): the data model, the balance increment, the rate
  in force.
- `accounts.dfy` (`Accounts`): the admin e-mail rule, the payer name split,
  the policy re-acceptance flag.
- `permissions.dfy` (`Permissions`): the admin panel's role/permission decision.
- `settlement.dfy` (`Settlement`): one function per route.
- `traces.dfy` (`Traces`): route sequences, the at-most-once payout theorem,
  preservation of amounts, solvency.
- `scenarios.dfy` (`Scenarios`): concrete walk-throughs, repetition facts,
  and the behaviour the code allows beyond a strict state machine.

What the proofs establish, in the system's terms:

- Along any sequence of calls, no transaction is credited twice, and a
  transaction that was already completed is never credited. A credit
  always moves a record from a non-completed status to `completed`, and
  `completed` is never left.
- A call moves money only in two ways. A paying call credits the
  transaction's owner with its `amount_output`. A successful withdrawal
  debits its caller by exactly `amount_ris`.
- Owner, kind and both amounts of a stored transaction never change. A
  withdrawal keeps the VES amount computed at creation, whatever rates are
  set later. The rate is 78.0 when none is stored.
- No balance goes below zero along any sequence of calls in which every
  provider notification references a recharge, for any withdrawal amounts
  and rates (`Traces.RunKeepsConsistent`). The server hands the provider
  only recharge ids as `external_reference` (backend/server.py:666-681), so
  this covers every payment the server itself creates, including the
  negative withdrawal amounts it accepts at backend/server.py:535. Also, if
  withdrawal amounts and rates are non-negative, no balance goes below zero
  whatever the notifications reference (`Traces.RunKeepsValid`).
- An operator's rejection never credits. The proof route and the operator
  decision each accept a transaction once.

What the code allows beyond a strict status machine, each shown by a lemma:

- The status poll short-circuits only on `completed`. When the provider
  says "approved", it credits a `pending_review` or `rejected` recharge
  (`Scenarios.PollPaysRejectedRecharge`).
- `process_withdrawal` updates by id alone. It sets any transaction to
  `completed`, whatever its kind or status
  (`Scenarios.ProcessCompletesWhateverTheStatus`).
- The WhatsApp path and the webhook do not filter on kind. The WhatsApp
  path can complete a pending recharge without crediting it, and after
  that nothing ever credits it (`Scenarios.WhatsAppClosesRechargeUnpaid`).
  The webhook credits a pending withdrawal's VES amount if an approved
  payment's reference names it (`Scenarios.WebhookCanPayWithdrawal`). The
  server never makes such a payment: the reference it gives the provider
  is always a new recharge id (backend/server.py:666-681). So this needs a
  payment created outside this server.
- A negative withdrawal amount raises the balance
  (`Scenarios.NegativeWithdrawalRaisesBalance`). Sequentially, this is the
  direct consequence of the missing sign check: a user can raise their
  own balance.
- A negative withdrawal amount or a negative rate, paid by a notification
  from such an outside payment, drives a balance below zero in the model
  (`Scenarios.NegativeWithdrawalPaidByWebhookGoesNegative`,
  `Scenarios.NegativeRatePaidByWebhookGoesNegative`).

The source names more than its routes implement:
- `ProcessWithdrawalRequest` in backend/admin_routes.py:37-41 declares a
  reject `action` and a `rejection_reason`. No route reads them.
  `process_withdrawal` (backend/server.py:127-129, 606-624) only completes.
  So a rejected payout is never refunded.
- The duplicate-recharge refusal (backend/server.py:662) tells the user to
  "complete or cancel" the pending recharge. No route cancels a
  transaction, and the status comment at backend/server.py:100 lists only
  `pending`, `completed` and `rejected`.
- The duplicate guard (backend/server.py:649-656) looks only at `pending`
  recharges. A recharge waiting in `pending_review` does not block a new one.

The model follows the routes as written, so it has no reject, refund or
cancel transition.

## Model

| member | source | states |
|---|---|---|
| Permissions.CheckPermission | backend/admin_routes.py:11-24 | `super_admin` is always granted; `admin` is granted everything except `admins.create`/`admins.edit`; in every other case the answer is exactly whether the permission is in the explicit list |
| Permissions.CheckIsRoleOrGrant | backend/admin_routes.py:11-24 | the decision equals "the role grants it by itself, or it is granted explicitly" |
| Permissions.CheckIsMonotone | backend/admin_routes.py:11-24 | adding explicit permissions never turns a granted decision into a refusal |
| Permissions.AdminManagementNeedsGrant | backend/admin_routes.py:18-24 | for an `admin`, creating or editing admins is granted exactly when it is in the explicit list |
| Accounts.ContainsIffOccurs | backend/server.py:205 | the left-to-right substring scan finds the needle exactly when it occurs at some position |
| Accounts.IsAdminEmail | backend/server.py:201-207 | an account passes the admin gate exactly when "admin" occurs in its lower-cased e-mail |
| Accounts.AdminGateIgnoresCase | backend/server.py:205 | the gate is a case-insensitive match: an e-mail passes exactly when the letters of "admin" occur consecutively in it, each in either case |
| Accounts.SpaceIndex | backend/server.py:669 | the split point is the first space, or the end when there is none |
| Accounts.SplitName | backend/server.py:668-671 | the first name has no space; with a space, first + " " + last rebuilds the name; without one, both parts are the whole name |
| Accounts.NeedsAcceptance | backend/server.py:359-367 | acceptance is needed unless the user accepted and the accepted version is the current "1.0" |
| Records.Credit | backend/server.py:750-754 | a balance increment touches only the named user, by exactly the amount, and nothing when the user is unknown |
| Settlement.AdminGate | backend/server.py:201-207 | admin routes refuse unknown users (404) and non-admin e-mails (403) and pass exactly the admins |
| Settlement.CreateWithdrawal | backend/server.py:524-556 | refused with nothing changed exactly when the caller is unknown or the balance is below the amount; otherwise the balance drops by exactly the amount and stays non-negative, one new pending withdrawal with output amount × rate in force is stored under an unused id, and nothing else changes |
| Settlement.ProcessWithdrawal | backend/server.py:605-624 | for an admin and an existing id, the record becomes completed with the proof whatever its kind or status; no balance moves; unknown id is 404 with no change |
| Settlement.WhatsAppProof | backend/server.py:1290-1306 | the selected transaction moves pending to completed with the image exactly when it is pending; no balance moves; otherwise nothing changes |
| Settlement.CreatePixRecharge | backend/server.py:634-705 | refusals in source order (unknown user, below 10, above 2000, not verified, same-amount pending recharge, provider refusal), each with nothing stored; success stores one pending recharge with output equal to input under an unused id and leaves every balance alone |
| Settlement.PollPixStatus | backend/server.py:720-779 | only the caller's own transaction is found; a completed one is reported and never re-credited; otherwise it is credited and completed exactly when it has a payment id and the provider approved, whatever its status, and is reported unsettled with nothing changed when not |
| Settlement.SubmitProof | backend/server.py:789-866 | only the caller's own pending recharge is accepted, else 404 with no change; provider-approved goes to completed with a credit of the output amount, otherwise to pending_review with no credit; the proof is attached |
| Settlement.ProviderWebhook | backend/server.py:894-946 | always acknowledged; credits the owner and completes the transaction exactly when an approved payment's reference names a pending transaction; otherwise no change |
| Settlement.ReasonOrDefault | backend/server.py:1207 | the operator's reason unless absent or empty, then "Comprobante inválido" |
| Settlement.ReviewRecharge | backend/server.py:1133-1221 | only a pending_review transaction is decided, else 404 with no change; approval credits the owner once and completes; rejection stores the reason and changes no balance |
| Settlement.UpdateRate | backend/server.py:467-476 | an admin replaces the rate singleton; transactions and balances are untouched |
| Settlement.ReadRate | backend/server.py:456-465 | returns the rate in force and stores the 78.0 default on first read |
| Settlement.WithdrawalSnapshotsTheRateRead | backend/server.py:528-548 | a withdrawal is converted at exactly the rate `get_rate` reports, which is 78.0 while none is stored |
| Settlement.SetRateIsReadBack | backend/server.py:467-476 | after an admin sets a rate, reading the rate returns that rate and its author, and the next withdrawal is converted at it |
| Traces.StepPreserves | backend/server.py:734-1294 | one call keeps ids fresh, keeps every transaction's owner, kind and amounts, keeps completed records completed, and only credits a transaction that moves from non-completed to completed, relying on the status guards of the poll (734), the proof route (794-799), the webhook (915-918), the operator decision (1137-1140) and the WhatsApp update (1293-1294) |
| Traces.StepMovesMoneyOnlyAsLogged | backend/server.py:553-1153 | relying on the balance writes of the withdrawal (553-556), the poll (750-754), the proof route (817-820), the webhook (925-928) and the operator decision (1150-1153): a paying call credits exactly the paid transaction's owner by its output amount; a withdrawal debits its caller by its amount or does nothing; no other call moves a balance |
| Traces.RunPaysEachAtMostOnce | backend/server.py:734-1294 | along any sequence of calls through all ten routes no transaction is credited twice, none completed at the start is credited, and every credited one ends completed, from the same status guards |
| Traces.AmountsSurviveAnyRun | backend/server.py:538-550 | a stored transaction's input and output amounts are the same after any sequence of calls |
| Traces.WithdrawalSnapshotSurvivesRateChanges | backend/server.py:467-476 | a withdrawal's output stays amount × the rate at its creation, whatever rate updates follow |
| Traces.StepKeepsValid | backend/server.py:534-556 | with non-negative withdrawal amounts and rates, one call keeps every balance, output amount and rate non-negative |
| Traces.RunKeepsValid | backend/server.py:534-556 | with non-negative withdrawal amounts and rates, no sequence of calls makes a balance negative |
| Traces.StepKeepsConsistent | backend/server.py:666-681 | for any amounts and rates, one call keeps balances non-negative, recharge outputs non-negative and withdrawals without payment id and out of review, provided a webhook references a recharge; whatever it pays is a recharge |
| Traces.RunKeepsConsistent | backend/server.py:666-681 | for any withdrawal amounts and rates, no sequence of calls whose notifications reference recharges (the only references the server creates) makes a balance negative |
| Scenarios.WithdrawalWithoutFundsIsRefused | backend/server.py:534-536 | with balance 0, withdrawing 100 is refused for insufficient balance and nothing changes |
| Scenarios.WithdrawalAtDefaultRate | backend/server.py:528-556 | with 500 RIS and no stored rate, withdrawing 100 leaves 400 and stores a pending withdrawal of 7800 VES |
| Scenarios.WebhookReplayCreditsOnce | backend/server.py:915-938 | a recharge of 50 confirmed twice by the webhook is credited once |
| Scenarios.ProofThenApprovalCreditsOnce | backend/server.py:1137-1165 | proof before confirmation, then operator approval, then a late webhook: one credit of 50 |
| Scenarios.PollPaysRejectedRecharge | backend/server.py:734-764 | a recharge the operator rejected is credited and completed by the status poll once the provider approves |
| Scenarios.WhatsAppClosesRechargeUnpaid | backend/server.py:1293-1302 | a pending recharge completed by the WhatsApp image is never credited, even after the provider confirms it |
| Scenarios.ProcessCompletesWhateverTheStatus | backend/server.py:609-620 | an admin completes any existing transaction, with no credit |
| Scenarios.NegativeWithdrawalRaisesBalance | backend/server.py:535-556 | a withdrawal of -100 is accepted, raises the balance by 100 and records -7800 VES |
| Scenarios.WebhookCanPayWithdrawal | backend/server.py:915-928 | an approved payment whose reference names a pending withdrawal credits it |
| Scenarios.NegativeWithdrawalPaidByWebhookGoesNegative | backend/server.py:915-928 | a -100 withdrawal followed by an approved payment from outside the server that references it leaves the customer at -7700 |
| Scenarios.NegativeRatePaidByWebhookGoesNegative | backend/server.py:467-476 | a rate of -100, then a covered withdrawal of 10 from 50 and an approved payment from outside the server that references it leave the customer at -960 |
| Scenarios.WebhookReplayIsNoOp | backend/server.py:915-938 | after a delivery that credited, the same delivery again changes nothing |
| Scenarios.WebhookDeliveriesPayOnce | backend/server.py:915-938 | any number of deliveries of one notice credit at most once |
| Scenarios.WebhookDeliveriesPayNothingOnceSettled | backend/server.py:915-920 | when the referenced transaction is unknown or no longer pending, any number of deliveries change nothing |
| Scenarios.SecondProofIsRefused | backend/server.py:794-802 | once a proof is accepted, a second submission is 404 with no change |
| Scenarios.PollAfterCompletionPaysNothing | backend/server.py:733-739 | polling a completed transaction credits nothing and changes nothing |
| Scenarios.RejectionNeverCredits | backend/server.py:1199-1209 | a rejection leaves every balance as it was and the transaction can no longer be decided |

## Left out

- Storage, routing and concurrency. MongoDB/Motor I/O, FastAPI routing and the interleaving of concurrent requests are left out. The model is sequential. The crediting routes (poll, proof, webhook, operator decision) and `create_withdrawal` read and then update without re-checking what they read; `process_withdrawal` (backend/server.py:609-617) and `update_rate` (backend/server.py:474-475) update blindly without a read, and only the WhatsApp update filters on status. So races between triggers can double-credit in the real server, and two racing withdrawals can both pass the balance check at backend/server.py:535 and overdraw, which is how the real server can go below zero. This model cannot show either.
- Sessions: cookies, bearer headers and session expiry (backend/server.py:158-199) are left out. Only the "user record missing" 404 and the admin e-mail gate are modelled.
- Account creation: `create_session` inserts a new user with a zero balance (backend/server.py:236-249). The model has no such call, so the set of users is fixed along a run (`Traces.Preserves`).
- Accounts.IsAdminEmail: lower-cases ASCII letters only; Python's `str.lower` also folds other alphabets, which the model does not.
- The payment provider SDK is left out. "Approved" is a boolean input, and a provider answer that is absent counts as not approved. A charge request is a `PixIntent` input. The webhook's exception path, which replies `{"status": "error"}` without changing state, is not modelled.
- WhatsApp: the Twilio sends, the media download, base64 conversion and the content-type check are left out. So is the regex that extracts an id from the message, and the fallback to the most recent pending withdrawal. The selected transaction is an input (`None` when there is none). Records are keyed by transaction id rather than by Mongo `_id`.
- Notifications, push messages, `admin_payment_records` audit inserts and the Excel export are left out. They are append-only side logs.
- Fields with no effect on settlement are not stored: beneficiary data, QR-code fields, timestamps, `processed_by`, `approved_by`, `rejected_by` and `verification_method`.
- uuid4 ids: a counter stands in for them. Traces.RunPaysEachAtMostOnce assumes `Fresh`, meaning ids never collide.
- Traces.RunKeepsValid: assumes non-negative withdrawal amounts and rates, which the server never checks. Without it, a balance goes below zero only through a notification of a payment created outside this server that references a withdrawal (`Scenarios.NegativeWithdrawalPaidByWebhookGoesNegative`, `Scenarios.NegativeRatePaidByWebhookGoesNegative`). `Traces.RunKeepsConsistent` covers every amount and rate when notifications reference recharges.
- Traces.RunKeepsConsistent: assumes every notification references a recharge. The webhook does not check this itself (backend/server.py:915-918), and the model does not describe what payments exist at the provider.
- Float rounding: amounts and rates are exact reals, so rounding is not modelled.
- Non-finite floats: the JSON body can carry NaN or ±Infinity in any float field, and the model's exact reals cannot represent them. Every comparison with NaN is False. So the balance check at backend/server.py:535 lets a NaN withdrawal through, and the `$inc` at backend/server.py:553-556 then makes the balance NaN, after which every later balance check passes. The same holds for both recharge bounds at backend/server.py:639-642. None of this is modelled.
- Routes absent from the source are not modelled: a refund on withdrawal rejection (admin_routes.py only declares a request model at lines 37-41), `/pix/cancel` and `/pix/pending`.
- KYC submission and decisions, policy acceptance, beneficiary CRUD and the notification routes are left out. Only the KYC status read by the recharge route and the `needs_acceptance` computation are modelled.

=== FILE: accounts.dfy ===
/** Small pure decisions about a user record: the admin gate, the payer
    name split sent to the payment provider, and the policy re-acceptance
    flag. */
module Accounts {

  import opened Records

  /** ASCII lower-casing; other characters are left as they are. */
  function LowerChar(c: char): char {
    if 'A' <= c <= 'Z' then (c as int + 32) as char else c
  }

  function Lower(s: string): string {
    seq(|s|, i requires 0 <= i < |s| => LowerChar(s[i]))
  }

  /** `t` sits in `s` at position `i`. */
  ghost predicate OccursAt(s: string, t: string, i: int) {
    0 <= i && i + |t| <= |s| && s[i..i + |t|] == t
  }

  ghost predicate Occurs(s: string, t: string) {
    exists i :: OccursAt(s, t, i)
  }

  /** Python's `t in s` for strings, scanning left to right. */
  predicate Contains(s: string, t: string)
    decreases |s|
  {
    (|t| <= |s| && s[..|t|] == t) || (|s| > 0 && Contains(s[1..], t))
  }

  /** The scan finds `t` exactly when `t` occurs somewhere in `s`. */
  lemma {:induction false} ContainsIffOccurs(s: string, t: string)
    ensures Contains(s, t) <==> Occurs(s, t)
    decreases |s|
  {
    if |t| <= |s| && s[..|t|] == t {
      assert OccursAt(s, t, 0);
    } else if |s| > 0 {
      ContainsIffOccurs(s[1..], t);
      if Contains(s[1..], t) {
        var i :| OccursAt(s[1..], t, i);
        assert s[1..][i..i + |t|] == s[i + 1..i + 1 + |t|];
        assert OccursAt(s, t, i + 1);
      }
      if Occurs(s, t) {
        var i :| OccursAt(s, t, i);
        assert i != 0;
        assert s[1..][i - 1..i - 1 + |t|] == s[i..i + |t|];
        assert OccursAt(s[1..], t, i - 1);
      }
    }
  }

  /** The admin gate of the server: an account is an administrator when
      its lower-cased e-mail contains "admin". */
  function IsAdminEmail(email: string): (admin: bool)
    ensures admin <==> Occurs(Lower(email), "admin")
  {
    ContainsIffOccurs(Lower(email), "admin");
    Contains(Lower(email), "admin")
  }

  /** The five letters of "admin" sit at position `i` of `e`, each in
      either case. */
  ghost predicate AnyCaseAt(e: string, i: int) {
    0 <= i && i + 5 <= |e| && forall j :: 0 <= j < 5 ==> (e[i + j] == "admin"[j] || e[i + j] == "ADMIN"[j])
  }

  lemma LoweredAdminAtIffAnyCase(e: string, i: int)
    ensures OccursAt(Lower(e), "admin", i) <==> AnyCaseAt(e, i)
  {
    if 0 <= i && i + 5 <= |e| {
      var w := Lower(e)[i..i + 5];
      forall j | 0 <= j < 5
        ensures w[j] == "admin"[j] <==> (e[i + j] == "admin"[j] || e[i + j] == "ADMIN"[j])
      {
        assert w[j] == LowerChar(e[i + j]);
      }
      if AnyCaseAt(e, i) {
        assert w == "admin";
      }
    }
  }

  /** The admin gate is a case-insensitive match: an e-mail passes exactly
      when "admin" occurs in it with each letter in either case. */
  lemma AdminGateIgnoresCase(e: string)
    ensures IsAdminEmail(e) <==> exists i :: AnyCaseAt(e, i)
  {
    if IsAdminEmail(e) {
      var i :| OccursAt(Lower(e), "admin", i);
      LoweredAdminAtIffAnyCase(e, i);
    }
    if exists i :: AnyCaseAt(e, i) {
      var i :| AnyCaseAt(e, i);
      LoweredAdminAtIffAnyCase(e, i);
    }
  }

  /** Index of the first space of `s`, or `|s|` when there is none. */
  function SpaceIndex(s: string): (k: nat)
    ensures k <= |s|
    ensures k < |s| ==> s[k] == ' '
    ensures forall j :: 0 <= j < k ==> s[j] != ' '
  {
    if |s| == 0 || s[0] == ' ' then 0 else 1 + SpaceIndex(s[1..])
  }

  /** `name.split(" ", 1)` followed by the fallback of the last name to
      the first name when there is no second part. */
  function SplitName(name: string): (parts: (string, string))
    ensures ' ' !in parts.0
    ensures ' ' in name ==> parts.0 + " " + parts.1 == name
    ensures ' ' !in name ==> parts.0 == name && parts.1 == name
  {
    var k := SpaceIndex(name);
    if k < |name| then
      assert name[..k] + " " + name[k + 1..] == name;
      (name[..k], name[k + 1..])
    else
      (name, name)
  }

  const CurrentPoliciesVersion: string := "1.0"

  /** `needs_acceptance` of the policy-status route: the user must accept
      again unless they accepted and what they accepted is the current
      version. */
  function NeedsAcceptance(accepted: bool, version: Option<string>): (needed: bool)
    ensures !needed <==> accepted && version == Some(CurrentPoliciesVersion)
  {
    var needsUpdate := if accepted then version != Some(CurrentPoliciesVersion) else true;
    !accepted || needsUpdate
  }
}

=== FILE: permissions.dfy ===
/** The role/permission decision of the admin panel. */
module Permissions {

  const SuperAdmin: string := "super_admin"
  const Admin: string := "admin"

  /** Permissions an `admin` holds only when granted explicitly. */
  const AdminOnly: seq<string> := ["admins.create", "admins.edit"]

  /** Whether a holder of `userRole` with the explicit grants
      `userPermissions` may exercise `required`. */
  function CheckPermission(userPermissions: seq<string>, userRole: string, required: string): (granted: bool)
    ensures userRole == SuperAdmin ==> granted
    ensures userRole == Admin && required != "admins.create" && required != "admins.edit" ==> granted
    ensures userRole != SuperAdmin && !(userRole == Admin && required !in AdminOnly) ==>
              (granted <==> required in userPermissions)
  {
    if userRole == SuperAdmin then true
    else if userRole == Admin && required !in AdminOnly then true
    else required in userPermissions
  }

  /** What a role grants without any explicit permission. */
  predicate RoleGrants(userRole: string, required: string) {
    userRole == SuperAdmin || (userRole == Admin && required !in AdminOnly)
  }

  /** The decision is the role's own grants plus the explicit list. */
  lemma CheckIsRoleOrGrant(userPermissions: seq<string>, userRole: string, required: string)
    ensures CheckPermission(userPermissions, userRole, required) <==>
              RoleGrants(userRole, required) || required in userPermissions
  {
  }

  /** Granting more permissions never withdraws a decision already granted. */
  lemma CheckIsMonotone(fewer: seq<string>, more: seq<string>, userRole: string, required: string)
    requires forall p :: p in fewer ==> p in more
    ensures CheckPermission(fewer, userRole, required) ==> CheckPermission(more, userRole, required)
  {
  }

  /** An `admin` cannot create or edit admins on the strength of the role:
      the explicit grant decides. */
  lemma AdminManagementNeedsGrant(userPermissions: seq<string>, required: string)
    requires required in AdminOnly
    ensures CheckPermission(userPermissions, Admin, required) <==> required in userPermissions
  {
  }
}

=== FILE: records.dfy ===
/** The persisted state of the RIS exchange back end, as one value: the
    `transactions` collection, the `users` collection (only the fields the
    settlement routes read or write), and the exchange-rate singleton.
    Every route of the settlement core is a pure function from one such
    value to the next.
 */
module Records {

  type UserId = string

  /** Transaction ids. The server draws a uuid4 for each new record; here a
      counter in the ledger plays that role, so a new id never collides. */
  type TxId = nat

  datatype Option<T> = None | Some(value: T)

  /** The `type` field of a transaction document. */
  datatype Kind = Recharge | Withdrawal

  /** The `status` field of a transaction document. Only these four values
      are ever written by the server. */
  datatype Status = Pending | PendingReview | Completed | Rejected

  /** The `verification_status` field of a user (KYC outcome). */
  datatype Kyc = KycPending | Verified | KycRejected

  /** A transaction document. `amountInput` is BRL for a recharge and RIS for
      a withdrawal; `amountOutput` is RIS for a recharge and VES for a
      withdrawal. `paymentId` is the provider's payment id (recharges only). */
  datatype Tx = Tx(
    owner: UserId,
    kind: Kind,
    status: Status,
    amountInput: real,
    amountOutput: real,
    paymentId: Option<string>,
    proof: Option<string>,
    rejectionReason: Option<string>)

  /** The part of a user document the settlement routes depend on. */
  datatype Account = Account(email: string, name: string, balance: real, kyc: Kyc)

  /** The exchange-rate singleton: RIS to VES. */
  datatype Rate = Rate(risToVes: real, updatedBy: Option<UserId>)

  datatype Ledger = Ledger(
    txs: map<TxId, Tx>,
    users: map<UserId, Account>,
    rate: Option<Rate>,
    nextId: TxId)

  /** The HTTP errors the settlement routes raise. */
  datatype Error =
    | UnknownUser          // 404 from the session lookup: the user record is gone
    | Forbidden            // 403 from the admin gate
    | InsufficientBalance  // 400
    | BelowMinimum         // 400, recharge under R$ 10
    | AboveMaximum         // 400, recharge over R$ 2000
    | NotVerified          // 403, KYC not approved
    | DuplicatePending     // 400, same-amount pending recharge exists
    | ProviderRefused      // 400, the payment provider did not create the charge
    | NotFound             // 404

  datatype Result<T> = Ok(value: T) | Err(error: Error)

  /** What a route returns: its reply, the state after it, and the
      transaction whose `amount_output` it credited to a balance, if any
      (the server writes a log line for each such credit). */
  datatype Outcome<T> = Outcome(reply: Result<T>, ledger: Ledger, paid: Option<TxId>)

  /** The rate used when no rate document is stored. */
  const DefaultRate: real := 78.0

  /** Recharge bounds, in BRL. */
  const MinRecharge: real := 10.0
  const MaxRecharge: real := 2000.0

  /** Every stored id is below the counter, so the next id is unused. */
  predicate Fresh(l: Ledger) {
    forall id :: id in l.txs ==> id < l.nextId
  }

  /** The multiplier a withdrawal snapshots: the stored rate, or 78.0. */
  function RateInForce(l: Ledger): real {
    match l.rate
    case None => DefaultRate
    case Some(rate) => rate.risToVes
  }

  /** A `$inc` of `balance_ris` on one user. Like an `update_one` that
      matches nothing, it leaves the users untouched when `u` is unknown. */
  function Credit(users: map<UserId, Account>, u: UserId, amount: real): (r: map<UserId, Account>)
    ensures r.Keys == users.Keys
    ensures u in users ==> r[u] == users[u].(balance := users[u].balance + amount)
    ensures forall v :: v in users && v != u ==> r[v] == users[v]
  {
    if u in users then users[u := users[u].(balance := users[u].balance + amount)] else users
  }

  /** Python truthiness of the stored provider payment id: absent and the
      empty string are both false. */
  predicate HasPaymentId(tx: Tx) {
    tx.paymentId.Some? && tx.paymentId.value != ""
  }
}

=== FILE: scenarios.dfy ===
/** Concrete walk-throughs of the settlement routes, and general facts
    about repeating a route. Several lemmas here exhibit behaviour the
    routes allow because they check neither status, kind nor sign: the
    status poll pays out rejected recharges, the admin completion ignores
    status, the WhatsApp completion can close a recharge without ever
    crediting it, a negative withdrawal raises the balance, and a negative
    withdrawal output drives a balance below zero when the webhook pays it
    for a payment created outside this server. */
module Scenarios {

  import opened Records
  import opened Settlement
  import opened Traces

  const Customer: UserId := "user_1"
  const Operator: UserId := "admin"

  function CustomerAccount(balance: real): Account {
    Account("cliente@example.com", "Ana Maria Silva", balance, Verified)
  }

  function OperatorAccount(): Account {
    Account("admin", "Operador", 0.0, Verified)
  }

  /** A ledger with the customer at `balance`, the operator, no stored rate
      and no transactions. */
  function Start(balance: real): Ledger {
    Ledger(map[], map[Customer := CustomerAccount(balance), Operator := OperatorAccount()], None, 0)
  }

  lemma OperatorIsAdmin(l: Ledger)
    requires Operator in l.users && l.users[Operator].email == "admin"
    ensures IsAdmin(l, Operator)
  {
  }

  /** A customer with no funds cannot withdraw, and nothing is stored. */
  lemma WithdrawalWithoutFundsIsRefused()
    ensures CreateWithdrawal(Start(0.0), Customer, 100.0) == Outcome(Err(InsufficientBalance), Start(0.0), None)
  {
  }

  /** With 500 RIS and no stored rate, withdrawing 100 RIS leaves 400 RIS and
      a pending withdrawal paying 7800 VES. */
  lemma WithdrawalAtDefaultRate()
    ensures var o := CreateWithdrawal(Start(500.0), Customer, 100.0);
              && o.reply == Ok(0)
              && o.ledger.users[Customer].balance == 400.0
              && o.ledger.txs[0] == Tx(Customer, Withdrawal, Pending, 100.0, 7800.0, None, None, None)
  {
  }

  /** A top-up of 50 confirmed twice by the provider's webhook is credited
      once: the second delivery finds nothing pending. */
  lemma WebhookReplayCreditsOnce()
    ensures var es := [CreatePix(Customer, 50.0, IntentCreated(Some("pay-1"))),
                       Webhook(Notice(true, true, Some(0))),
                       Webhook(Notice(true, true, Some(0)))];
              var r := Run(Start(0.0), es);
              && r.paid == [0]
              && 0 in r.ledger.txs && Customer in r.ledger.users
              && r.ledger.txs[0].status == Completed
              && r.ledger.users[Customer].balance == 50.0
  {
    var e0 := CreatePix(Customer, 50.0, IntentCreated(Some("pay-1")));
    var e1 := Webhook(Notice(true, true, Some(0)));
    var l0 := Start(0.0);
    assert !HasPendingRecharge(l0, Customer, 50.0);
    var t0 := Step(l0, e0);
    assert t0.paid.None? && t0.ledger.txs[0].status == Pending;
    var t1 := Step(t0.ledger, e1);
    assert t1.paid == Some(0) && t1.ledger.users[Customer].balance == 50.0;
    var t2 := Step(t1.ledger, e1);
    assert t2 == Transition(t1.ledger, None);
    assert Run(t1.ledger, [e1]) == Trace(t1.ledger, []);
    assert Run(t0.ledger, [e1, e1]) == Trace(t1.ledger, [0]);
    assert [e0, e1, e1][1..] == [e1, e1];
  }

  /** A proof sent before the provider confirms waits for an operator; the
      operator's approval credits it once; a late webhook changes nothing. */
  lemma ProofThenApprovalCreditsOnce()
    ensures var es := [CreatePix(Customer, 50.0, IntentCreated(Some("pay-1"))),
                       Proof(Customer, 0, "comprobante.png", false),
                       Review(Operator, 0, true, None),
                       Webhook(Notice(true, true, Some(0)))];
              var r := Run(Start(0.0), es);
              && r.paid == [0]
              && 0 in r.ledger.txs && Customer in r.ledger.users
              && r.ledger.txs[0].status == Completed
              && r.ledger.users[Customer].balance == 50.0
  {
    var e0 := CreatePix(Customer, 50.0, IntentCreated(Some("pay-1")));
    var e1 := Proof(Customer, 0, "comprobante.png", false);
    var e2 := Review(Operator, 0, true, None);
    var e3 := Webhook(Notice(true, true, Some(0)));
    var l0 := Start(0.0);
    assert !HasPendingRecharge(l0, Customer, 50.0);
    var t0 := Step(l0, e0);
    assert t0.paid.None? && t0.ledger.txs[0].status == Pending && t0.ledger.txs[0].owner == Customer;
    var t1 := Step(t0.ledger, e1);
    assert t1.paid.None? && t1.ledger.txs[0].status == PendingReview;
    OperatorIsAdmin(t1.ledger);
    var t2 := Step(t1.ledger, e2);
    assert t2.paid == Some(0) && t2.ledger.users[Customer].balance == 50.0;
    var t3 := Step(t2.ledger, e3);
    assert t3 == Transition(t2.ledger, None);
    assert Run(t2.ledger, [e3]) == Trace(t2.ledger, []);
    assert Run(t1.ledger, [e2, e3]) == Trace(t2.ledger, [0]);
    assert [e1, e2, e3][1..] == [e2, e3];
    assert Run(t0.ledger, [e1, e2, e3]) == Trace(t2.ledger, [0]);
    assert [e0, e1, e2, e3][1..] == [e1, e2, e3];
  }

  /** The status poll credits a recharge the operator rejected, once the
      provider reports the payment approved: its only short-circuit is on
      `completed`. */
  lemma PollPaysRejectedRecharge()
    ensures var es := [CreatePix(Customer, 50.0, IntentCreated(Some("pay-1"))),
                       Proof(Customer, 0, "comprobante.png", false),
                       Review(Operator, 0, false, None),
                       Poll(Customer, 0, true)];
              var r := Run(Start(0.0), es);
              && r.paid == [0]
              && 0 in r.ledger.txs && Customer in r.ledger.users
              && r.ledger.txs[0].status == Completed
              && r.ledger.txs[0].rejectionReason == Some(DefaultRejection)
              && r.ledger.users[Customer].balance == 50.0
  {
    var e0 := CreatePix(Customer, 50.0, IntentCreated(Some("pay-1")));
    var e1 := Proof(Customer, 0, "comprobante.png", false);
    var e2 := Review(Operator, 0, false, None);
    var e3 := Poll(Customer, 0, true);
    var l0 := Start(0.0);
    assert !HasPendingRecharge(l0, Customer, 50.0);
    var t0 := Step(l0, e0);
    assert t0.paid.None? && t0.ledger.txs[0].status == Pending && t0.ledger.txs[0].owner == Customer;
    var t1 := Step(t0.ledger, e1);
    assert t1.paid.None? && t1.ledger.txs[0].status == PendingReview;
    OperatorIsAdmin(t1.ledger);
    var t2 := Step(t1.ledger, e2);
    assert t2.paid.None? && t2.ledger.txs[0].status == Rejected && t2.ledger.users[Customer].balance == 0.0;
    var t3 := Step(t2.ledger, e3);
    assert t3.paid == Some(0) && t3.ledger.users[Customer].balance == 50.0;
    assert Run(t2.ledger, [e3]) == Trace(t3.ledger, [0]);
    assert Run(t1.ledger, [e2, e3]) == Trace(t3.ledger, [0]);
    assert [e1, e2, e3][1..] == [e2, e3];
    assert Run(t0.ledger, [e1, e2, e3]) == Trace(t3.ledger, [0]);
    assert [e0, e1, e2, e3][1..] == [e1, e2, e3];
  }

  /** The WhatsApp completion does not look at the kind: a pending recharge
      it closes is never credited, even when the provider later confirms
      the payment. */
  lemma WhatsAppClosesRechargeUnpaid()
    ensures var es := [CreatePix(Customer, 50.0, IntentCreated(Some("pay-1"))),
                       WhatsAppImage(Some(0), "imagen"),
                       Webhook(Notice(true, true, Some(0))),
                       Poll(Customer, 0, true)];
              var r := Run(Start(0.0), es);
              && r.paid == []
              && 0 in r.ledger.txs && Customer in r.ledger.users
              && r.ledger.txs[0].status == Completed
              && r.ledger.users[Customer].balance == 0.0
  {
    var e0 := CreatePix(Customer, 50.0, IntentCreated(Some("pay-1")));
    var e1 := WhatsAppImage(Some(0), "imagen");
    var e2 := Webhook(Notice(true, true, Some(0)));
    var e3 := Poll(Customer, 0, true);
    var l0 := Start(0.0);
    assert !HasPendingRecharge(l0, Customer, 50.0);
    var t0 := Step(l0, e0);
    assert t0.paid.None? && t0.ledger.txs[0].status == Pending;
    var t1 := Step(t0.ledger, e1);
    assert t1.paid.None? && t1.ledger.txs[0].status == Completed && t1.ledger.users == l0.users;
    var t2 := Step(t1.ledger, e2);
    assert t2 == Transition(t1.ledger, None);
    var t3 := Step(t1.ledger, e3);
    assert t3 == Transition(t1.ledger, None);
    assert Run(t1.ledger, [e3]) == Trace(t1.ledger, []);
    assert Run(t1.ledger, [e2, e3]) == Trace(t1.ledger, []);
    assert [e1, e2, e3][1..] == [e2, e3];
    assert Run(t0.ledger, [e1, e2, e3]) == Trace(t1.ledger, []);
    assert [e0, e1, e2, e3][1..] == [e1, e2, e3];
  }

  /** The admin completion ignores status: it turns a rejected recharge
      into a completed one, with no credit. */
  lemma ProcessCompletesWhateverTheStatus(l: Ledger, admin: UserId, id: TxId, proof: string)
    requires IsAdmin(l, admin) && id in l.txs
    ensures var o := ProcessWithdrawal(l, admin, id, proof);
              && o.reply.Ok?
              && o.ledger.txs[id].status == Completed
              && o.ledger.users == l.users
              && o.paid.None?
  {
  }

  /** The withdrawal amount's sign is never checked: a withdrawal of -100
      RIS raises the balance by 100 and records -7800 VES. */
  lemma NegativeWithdrawalRaisesBalance()
    ensures var o := CreateWithdrawal(Start(0.0), Customer, -100.0);
              && o.reply == Ok(0)
              && o.ledger.users[Customer].balance == 100.0
              && o.ledger.txs[0].amountOutput == -7800.0
  {
  }

  /** What the sign assumption of `RunKeepsValid` rules out, in the model:
      a withdrawal of -100 RIS records -7800 VES, and an approved payment
      whose reference names it credits that output, leaving the customer at
      -7700. The server gives the provider only recharge ids as references,
      so the run needs a payment created outside this server; without one,
      `RunKeepsConsistent` keeps balances non-negative for any amount. */
  lemma NegativeWithdrawalPaidByWebhookGoesNegative()
    ensures var es := [Withdraw(Customer, -100.0), Webhook(Notice(true, true, Some(0)))];
              var r := Run(Start(0.0), es);
              && !Sane(es[0])
              && r.paid == [0]
              && Customer in r.ledger.users
              && r.ledger.users[Customer].balance == -7700.0
  {
    var e0 := Withdraw(Customer, -100.0);
    var e1 := Webhook(Notice(true, true, Some(0)));
    var l0 := Start(0.0);
    var t0 := Step(l0, e0);
    assert t0.paid.None? && t0.ledger.users[Customer].balance == 100.0;
    assert t0.ledger.txs[0] == Tx(Customer, Withdrawal, Pending, -100.0, -7800.0, None, None, None);
    var t1 := Step(t0.ledger, e1);
    assert t1.paid == Some(0) && t1.ledger.users[Customer].balance == -7700.0;
    assert Run(t0.ledger, [e1]) == Trace(t1.ledger, [0]);
    assert [e0, e1][1..] == [e1];
  }

  /** A negative rate does it with a covered, positive withdrawal: at rate
      -100, withdrawing 10 of 50 RIS records -1000 VES, and the webhook
      paying it leaves the customer at -960. As above, the paying
      notification must come from a payment created outside this server. */
  lemma NegativeRatePaidByWebhookGoesNegative()
    ensures var es := [SetRate(Operator, -100.0), Withdraw(Customer, 10.0),
                       Webhook(Notice(true, true, Some(0)))];
              var r := Run(Start(50.0), es);
              && !Sane(es[0]) && Sane(es[1])
              && r.paid == [0]
              && Customer in r.ledger.users
              && r.ledger.users[Customer].balance == -960.0
  {
    var e0 := SetRate(Operator, -100.0);
    var e1 := Withdraw(Customer, 10.0);
    var e2 := Webhook(Notice(true, true, Some(0)));
    var l0 := Start(50.0);
    OperatorIsAdmin(l0);
    var t0 := Step(l0, e0);
    assert t0.paid.None? && RateInForce(t0.ledger) == -100.0 && t0.ledger.users == l0.users;
    var t1 := Step(t0.ledger, e1);
    assert t1.paid.None? && t1.ledger.users[Customer].balance == 40.0;
    assert t1.ledger.txs[0] == Tx(Customer, Withdrawal, Pending, 10.0, -1000.0, None, None, None);
    var t2 := Step(t1.ledger, e2);
    assert t2.paid == Some(0) && t2.ledger.users[Customer].balance == -960.0;
    assert Run(t1.ledger, [e2]) == Trace(t2.ledger, [0]);
    assert Run(t0.ledger, [e1, e2]) == Trace(t2.ledger, [0]);
    assert [e0, e1, e2][1..] == [e1, e2];
  }

  /** The webhook does not look at the kind either: an approved payment
      whose reference names a pending withdrawal credits that withdrawal's
      VES output to its owner. The server itself only ever gives a recharge
      id as a payment's reference, so such a payment must have been created
      outside this server. */
  lemma WebhookCanPayWithdrawal(l: Ledger, n: Notice)
    requires n.paymentEvent && n.approved && n.externalRef.Some?
    requires n.externalRef.value in l.txs
    requires l.txs[n.externalRef.value].kind == Withdrawal && l.txs[n.externalRef.value].status == Pending
    ensures ProviderWebhook(l, n).paid == Some(n.externalRef.value)
  {
  }

  // ---------------------------------------------------------------------
  // Repeating a route
  // ---------------------------------------------------------------------

  /** A webhook delivered twice pays at most once: the second delivery
      leaves the ledger as the first left it. */
  lemma WebhookReplayIsNoOp(l: Ledger, n: Notice)
    ensures var first := ProviderWebhook(l, n);
              var second := ProviderWebhook(first.ledger, n);
              first.paid.Some? ==> second.paid.None? && second.ledger == first.ledger
  {
  }

  /** Any number of deliveries of one notice pays at most once. */
  lemma {:induction false} WebhookDeliveriesPayOnce(l: Ledger, n: Notice, k: nat)
    ensures |Run(l, seq(k, _ => Webhook(n))).paid| <= 1
    decreases k
  {
    if k > 0 {
      var es := seq(k, _ => Webhook(n));
      var rest := seq(k - 1, _ => Webhook(n));
      assert es[1..] == rest;
      var first := ProviderWebhook(l, n);
      WebhookDeliveriesPayOnce(first.ledger, n, k - 1);
      if first.paid.Some? {
        WebhookDeliveriesPayNothingOnceSettled(first.ledger, n, k - 1);
      }
    }
  }

  /** Once the referenced transaction is unknown or no longer pending,
      deliveries of the notice pay nothing and change nothing. */
  lemma {:induction false} WebhookDeliveriesPayNothingOnceSettled(l: Ledger, n: Notice, k: nat)
    requires n.externalRef.Some? ==> !(n.externalRef.value in l.txs && l.txs[n.externalRef.value].status == Pending)
    ensures Run(l, seq(k, _ => Webhook(n))) == Trace(l, [])
    decreases k
  {
    if k > 0 {
      var es := seq(k, _ => Webhook(n));
      assert es[1..] == seq(k - 1, _ => Webhook(n));
      WebhookDeliveriesPayNothingOnceSettled(l, n, k - 1);
    }
  }

  /** A proof is accepted once: the second submission finds no pending
      recharge and changes nothing. */
  lemma SecondProofIsRefused(l: Ledger, caller: UserId, id: TxId, proof: string, approved: bool,
                             proof2: string, approved2: bool)
    requires SubmitProof(l, caller, id, proof, approved).reply.Ok?
    ensures var l1 := SubmitProof(l, caller, id, proof, approved).ledger;
              SubmitProof(l1, caller, id, proof2, approved2) == Outcome(Err(NotFound), l1, None)
  {
  }

  /** Polling a completed transaction pays nothing, whatever the provider
      says. */
  lemma PollAfterCompletionPaysNothing(l: Ledger, caller: UserId, id: TxId, approved: bool)
    requires id in l.txs && l.txs[id].status == Completed
    ensures PollPixStatus(l, caller, id, approved).paid.None?
    ensures PollPixStatus(l, caller, id, approved).ledger == l
  {
  }

  /** An operator's rejection never moves a balance, and the transaction
      can no longer be decided by an operator. */
  lemma RejectionNeverCredits(l: Ledger, admin: UserId, id: TxId, reason: Option<string>, approve2: bool)
    requires ReviewRecharge(l, admin, id, false, reason).reply.Ok?
    ensures var o := ReviewRecharge(l, admin, id, false, reason);
              && o.ledger.users == l.users
              && o.ledger.txs[id].status == Rejected
              && ReviewRecharge(o.ledger, admin, id, approve2, None).reply == Err(NotFound)
  {
  }
}

=== FILE: settlement.dfy ===
/** The routes that create and settle transactions, each a pure transition
    of the ledger. A route's `find_one` filter is its guard; the update that
    follows it carries no status filter except on the WhatsApp path, and in
    this sequential model that makes no difference.

    The payment provider is not modelled: its verdict on a payment
    ("approved" or not) and its answer to a charge request are inputs.
 */
module Settlement {

  import opened Records
  import Accounts

  /** The admin gate: the caller's user record exists and its e-mail passes
      the "admin" test. */
  predicate IsAdmin(l: Ledger, u: UserId) {
    u in l.users && Accounts.IsAdminEmail(l.users[u].email)
  }

  /** The error the admin gate raises, if any. */
  function AdminGate(l: Ledger, u: UserId): (e: Option<Error>)
    ensures e.None? <==> IsAdmin(l, u)
    ensures u !in l.users ==> e == Some(UnknownUser)
    ensures u in l.users && !IsAdmin(l, u) ==> e == Some(Forbidden)
  {
    if u !in l.users then Some(UnknownUser)
    else if !Accounts.IsAdminEmail(l.users[u].email) then Some(Forbidden)
    else None
  }

  /** A refusal: the reply is the error and nothing changes. */
  function Refuse<T>(l: Ledger, e: Error): (o: Outcome<T>)
    ensures o.reply == Err(e) && o.ledger == l && o.paid.None?
  {
    Outcome(Err(e), l, None)
  }

  // ---------------------------------------------------------------------
  // Withdrawals
  // ---------------------------------------------------------------------

  /** `create_withdrawal`: refuse when the balance is below the amount;
      otherwise snapshot the rate, insert a pending withdrawal and debit the
      balance at once. The amount's sign is never checked. */
  function CreateWithdrawal(l: Ledger, caller: UserId, amountRis: real): (o: Outcome<TxId>)
    ensures o.paid.None? && o.ledger.rate == l.rate
    ensures o.reply.Ok? <==> caller in l.users && amountRis <= l.users[caller].balance
    ensures caller !in l.users ==> o.reply == Err(UnknownUser)
    ensures caller in l.users && l.users[caller].balance < amountRis ==> o.reply == Err(InsufficientBalance)
    ensures o.reply.Err? ==> o.ledger == l
    ensures o.reply.Ok? ==>
              var id := o.reply.value;
              && id == l.nextId
              && o.ledger.nextId == id + 1
              && o.ledger.txs.Keys == l.txs.Keys + {id}
              && o.ledger.txs[id] == Tx(caller, Withdrawal, Pending, amountRis, amountRis * RateInForce(l), None, None, None)
              && (forall t :: t in l.txs && t != id ==> o.ledger.txs[t] == l.txs[t])
              && o.ledger.users == Credit(l.users, caller, -amountRis)
              && o.ledger.users[caller].balance == l.users[caller].balance - amountRis
              && o.ledger.users[caller].balance >= 0.0
              && (forall u :: u in l.users && u != caller ==> o.ledger.users[u] == l.users[u])
    ensures Fresh(l) ==> Fresh(o.ledger) && (o.reply.Ok? ==> o.reply.value !in l.txs)
  {
    if caller !in l.users then Refuse(l, UnknownUser)
    else if l.users[caller].balance < amountRis then Refuse(l, InsufficientBalance)
    else
      var id := l.nextId;
      var tx := Tx(caller, Withdrawal, Pending, amountRis, amountRis * RateInForce(l), None, None, None);
      Outcome(Ok(id), l.(txs := l.txs[id := tx], users := Credit(l.users, caller, -amountRis), nextId := id + 1), None)
  }

  /** `process_withdrawal`: an admin marks a transaction completed and
      attaches the proof. The update is keyed on the id alone: whatever the
      kind and status, the record becomes completed, and no balance moves. */
  function ProcessWithdrawal(l: Ledger, admin: UserId, id: TxId, proof: string): (o: Outcome<()>)
    ensures o.paid.None? && o.ledger.users == l.users && o.ledger.rate == l.rate
    ensures o.reply.Ok? <==> IsAdmin(l, admin) && id in l.txs
    ensures IsAdmin(l, admin) && id !in l.txs ==> o.reply == Err(NotFound)
    ensures o.reply.Err? ==> o.ledger == l
    ensures o.reply.Ok? ==>
              && o.ledger.txs.Keys == l.txs.Keys
              && o.ledger.txs[id] == l.txs[id].(status := Completed, proof := Some(proof))
              && (forall t :: t in l.txs && t != id ==> o.ledger.txs[t] == l.txs[t])
              && o.ledger.nextId == l.nextId
  {
    match AdminGate(l, admin)
    case Some(e) => Refuse(l, e)
    case None =>
      if id !in l.txs then Refuse(l, NotFound)
      else Outcome(Ok(()), l.(txs := l.txs[id := l.txs[id].(status := Completed, proof := Some(proof))]), None)
  }

  /** The status part of the WhatsApp image route: a conditional update
      from pending to completed on the selected transaction, attaching the
      image. `target` is the transaction the message selects, or None when
      the message yields none. The reply says whether the update matched. */
  function WhatsAppProof(l: Ledger, target: Option<TxId>, proof: string): (o: Outcome<bool>)
    ensures o.paid.None? && o.ledger.users == l.users && o.ledger.rate == l.rate
    ensures o.reply.Ok?
    ensures o.reply.value <==> target.Some? && target.value in l.txs && l.txs[target.value].status == Pending
    ensures !o.reply.value ==> o.ledger == l
    ensures o.reply.value ==>
              var id := target.value;
              && o.ledger.txs.Keys == l.txs.Keys
              && o.ledger.txs[id] == l.txs[id].(status := Completed, proof := Some(proof))
              && (forall t :: t in l.txs && t != id ==> o.ledger.txs[t] == l.txs[t])
              && o.ledger.nextId == l.nextId
  {
    match target
    case None => Outcome(Ok(false), l, None)
    case Some(id) =>
      if id in l.txs && l.txs[id].status == Pending then
        Outcome(Ok(true), l.(txs := l.txs[id := l.txs[id].(status := Completed, proof := Some(proof))]), None)
      else
        Outcome(Ok(false), l, None)
  }

  // ---------------------------------------------------------------------
  // PIX recharges
  // ---------------------------------------------------------------------

  /** The payment provider's answer to a charge request. */
  datatype PixIntent = IntentRefused | IntentCreated(paymentId: Option<string>)

  /** The duplicate guard's query: a `pending` recharge of the caller with
      exactly this input amount. */
  predicate HasPendingRecharge(l: Ledger, caller: UserId, amount: real) {
    exists id :: id in l.txs && l.txs[id].owner == caller && l.txs[id].kind == Recharge
                 && l.txs[id].status == Pending && l.txs[id].amountInput == amount
  }

  /** `create_pix_payment`: bounds, KYC and the duplicate guard are checked
      in that order, then the provider is asked for a charge; only on its
      success is a pending recharge stored, credited 1:1 and not yet paid. */
  function CreatePixRecharge(l: Ledger, caller: UserId, amount: real, intent: PixIntent): (o: Outcome<TxId>)
    ensures o.paid.None? && o.ledger.users == l.users && o.ledger.rate == l.rate
    ensures o.reply.Ok? <==>
              && caller in l.users
              && MinRecharge <= amount <= MaxRecharge
              && l.users[caller].kyc == Verified
              && !HasPendingRecharge(l, caller, amount)
              && intent.IntentCreated?
    ensures caller !in l.users ==> o.reply == Err(UnknownUser)
    ensures caller in l.users && amount < MinRecharge ==> o.reply == Err(BelowMinimum)
    ensures caller in l.users && amount > MaxRecharge ==> o.reply == Err(AboveMaximum)
    ensures caller in l.users && MinRecharge <= amount <= MaxRecharge && l.users[caller].kyc != Verified ==>
              o.reply == Err(NotVerified)
    ensures (caller in l.users && MinRecharge <= amount <= MaxRecharge && l.users[caller].kyc == Verified &&
             HasPendingRecharge(l, caller, amount)) ==> o.reply == Err(DuplicatePending)
    ensures (caller in l.users && MinRecharge <= amount <= MaxRecharge && l.users[caller].kyc == Verified &&
             !HasPendingRecharge(l, caller, amount) && intent.IntentRefused?) ==> o.reply == Err(ProviderRefused)
    ensures o.reply.Err? ==> o.ledger == l
    ensures o.reply.Ok? ==>
              var id := o.reply.value;
              && id == l.nextId
              && o.ledger.nextId == id + 1
              && o.ledger.txs.Keys == l.txs.Keys + {id}
              && o.ledger.txs[id] == Tx(caller, Recharge, Pending, amount, amount, intent.paymentId, None, None)
              && (forall t :: t in l.txs && t != id ==> o.ledger.txs[t] == l.txs[t])
    ensures Fresh(l) ==> Fresh(o.ledger) && (o.reply.Ok? ==> o.reply.value !in l.txs)
  {
    if caller !in l.users then Refuse(l, UnknownUser)
    else if amount < MinRecharge then Refuse(l, BelowMinimum)
    else if amount > MaxRecharge then Refuse(l, AboveMaximum)
    else if l.users[caller].kyc != Verified then Refuse(l, NotVerified)
    else if HasPendingRecharge(l, caller, amount) then Refuse(l, DuplicatePending)
    else
      match intent
      case IntentRefused => Refuse(l, ProviderRefused)
      case IntentCreated(paymentId) =>
        var id := l.nextId;
        var tx := Tx(caller, Recharge, Pending, amount, amount, paymentId, None, None);
        Outcome(Ok(id), l.(txs := l.txs[id := tx], nextId := id + 1), None)
  }

  /** The answer of the status poll. */
  datatype PollAnswer = Settled(amountRis: real) | Unsettled

  /** `get_pix_status`: the caller's transaction is looked up by id and
      owner. A completed one is reported as is. Otherwise, when it has a
      provider payment id and the provider says approved, the balance is
      credited and the record completed -- whatever its current status, so
      a `pending_review` or `rejected` recharge is credited too. */
  function PollPixStatus(l: Ledger, caller: UserId, id: TxId, approved: bool): (o: Outcome<PollAnswer>)
    ensures o.ledger.rate == l.rate && o.ledger.nextId == l.nextId
    ensures caller !in l.users ==> o.reply == Err(UnknownUser)
    ensures caller in l.users && !(id in l.txs && l.txs[id].owner == caller) ==> o.reply == Err(NotFound)
    ensures o.reply.Err? ==> caller !in l.users || id !in l.txs || l.txs[id].owner != caller
    ensures caller in l.users && id in l.txs && l.txs[id].owner == caller && l.txs[id].status == Completed ==>
              o.reply == Ok(Settled(l.txs[id].amountOutput))
    ensures o.paid.Some? <==>
              && caller in l.users && id in l.txs && l.txs[id].owner == caller
              && l.txs[id].status != Completed && HasPaymentId(l.txs[id]) && approved
    ensures (caller in l.users && id in l.txs && l.txs[id].owner == caller &&
             l.txs[id].status != Completed && o.paid.None?) ==> o.reply == Ok(Unsettled)
    ensures o.paid.None? ==> o.ledger == l
    ensures o.paid.Some? ==>
              && o.paid.value == id
              && o.reply == Ok(Settled(l.txs[id].amountOutput))
              && o.ledger.txs == l.txs[id := l.txs[id].(status := Completed)]
              && o.ledger.users == Credit(l.users, caller, l.txs[id].amountOutput)
  {
    if caller !in l.users then Refuse(l, UnknownUser)
    else if id !in l.txs || l.txs[id].owner != caller then Refuse(l, NotFound)
    else
      var tx := l.txs[id];
      if tx.status == Completed then Outcome(Ok(Settled(tx.amountOutput)), l, None)
      else if HasPaymentId(tx) && approved then
        Outcome(Ok(Settled(tx.amountOutput)),
                l.(txs := l.txs[id := tx.(status := Completed)],
                   users := Credit(l.users, caller, tx.amountOutput)),
                Some(id))
      else Outcome(Ok(Unsettled), l, None)
  }

  /** `verify_pix_with_proof`: only the caller's own pending recharge is
      accepted. When the provider already approved the payment, the balance
      is credited and the record completed; otherwise it waits for an
      operator in `pending_review`, with no credit. Either way the proof is
      attached. */
  function SubmitProof(l: Ledger, caller: UserId, id: TxId, proof: string, approved: bool): (o: Outcome<Status>)
    ensures o.ledger.rate == l.rate && o.ledger.nextId == l.nextId
    ensures o.reply.Ok? <==>
              && caller in l.users && id in l.txs && l.txs[id].owner == caller
              && l.txs[id].kind == Recharge && l.txs[id].status == Pending
    ensures caller !in l.users ==> o.reply == Err(UnknownUser)
    ensures caller in l.users && o.reply.Err? ==> o.reply == Err(NotFound)
    ensures o.reply.Err? ==> o.ledger == l && o.paid.None?
    ensures o.reply.Ok? ==> o.reply.value == Completed || o.reply.value == PendingReview
    ensures o.reply.Ok? ==> (o.reply.value == Completed <==> HasPaymentId(l.txs[id]) && approved)
    ensures o.reply == Ok(Completed) ==>
              && o.paid == Some(id)
              && o.ledger.txs == l.txs[id := l.txs[id].(status := Completed, proof := Some(proof))]
              && o.ledger.users == Credit(l.users, caller, l.txs[id].amountOutput)
    ensures o.reply == Ok(PendingReview) ==>
              && o.paid.None?
              && o.ledger.txs == l.txs[id := l.txs[id].(status := PendingReview, proof := Some(proof))]
              && o.ledger.users == l.users
  {
    if caller !in l.users then Refuse(l, UnknownUser)
    else if !(id in l.txs && l.txs[id].owner == caller && l.txs[id].kind == Recharge && l.txs[id].status == Pending) then
      Refuse(l, NotFound)
    else
      var tx := l.txs[id];
      if HasPaymentId(tx) && approved then
        Outcome(Ok(Completed),
                l.(txs := l.txs[id := tx.(status := Completed, proof := Some(proof))],
                   users := Credit(l.users, caller, tx.amountOutput)),
                Some(id))
      else
        Outcome(Ok(PendingReview), l.(txs := l.txs[id := tx.(status := PendingReview, proof := Some(proof))]), None)
  }

  /** A payment notification, as far as the webhook reads it:
      whether it is a payment event carrying a payment id, whether the
      provider reports that payment approved, and the payment's external
      reference (the transaction id given at charge creation). */
  datatype Notice = Notice(paymentEvent: bool, approved: bool, externalRef: Option<TxId>)

  /** `mercadopago_webhook`: an approved payment whose external reference
      names a `pending` transaction credits that transaction's owner and
      completes it. Every delivery is acknowledged. */
  function ProviderWebhook(l: Ledger, n: Notice): (o: Outcome<()>)
    ensures o.reply == Ok(())
    ensures o.ledger.rate == l.rate && o.ledger.nextId == l.nextId
    ensures o.paid.Some? <==>
              && n.paymentEvent && n.approved && n.externalRef.Some?
              && n.externalRef.value in l.txs && l.txs[n.externalRef.value].status == Pending
    ensures o.paid.None? ==> o.ledger == l
    ensures o.paid.Some? ==>
              var id := n.externalRef.value;
              && o.paid.value == id
              && o.ledger.txs == l.txs[id := l.txs[id].(status := Completed)]
              && o.ledger.users == Credit(l.users, l.txs[id].owner, l.txs[id].amountOutput)
  {
    if !(n.paymentEvent && n.approved) then Outcome(Ok(()), l, None)
    else
      match n.externalRef
      case None => Outcome(Ok(()), l, None)
      case Some(id) =>
        if id in l.txs && l.txs[id].status == Pending then
          var tx := l.txs[id];
          Outcome(Ok(()),
                  l.(txs := l.txs[id := tx.(status := Completed)],
                     users := Credit(l.users, tx.owner, tx.amountOutput)),
                  Some(id))
        else Outcome(Ok(()), l, None)
  }

  const DefaultRejection: string := "Comprobante inválido"

  /** The stored rejection reason: the operator's, unless absent or empty. */
  function ReasonOrDefault(reason: Option<string>): (r: string)
    ensures r != ""
    ensures reason.Some? && reason.value != "" ==> r == reason.value
    ensures reason.None? || reason.value == "" ==> r == DefaultRejection
  {
    if reason.Some? && reason.value != "" then reason.value else DefaultRejection
  }

  /** `approve_recharge`: an admin decides a transaction in
      `pending_review`. Approval credits the owner and completes it;
      rejection records the reason and never touches a balance. */
  function ReviewRecharge(l: Ledger, admin: UserId, id: TxId, approve: bool, reason: Option<string>): (o: Outcome<Status>)
    ensures o.ledger.rate == l.rate && o.ledger.nextId == l.nextId
    ensures o.reply.Ok? <==> IsAdmin(l, admin) && id in l.txs && l.txs[id].status == PendingReview
    ensures admin !in l.users ==> o.reply == Err(UnknownUser)
    ensures admin in l.users && !IsAdmin(l, admin) ==> o.reply == Err(Forbidden)
    ensures IsAdmin(l, admin) && o.reply.Err? ==> o.reply == Err(NotFound)
    ensures o.reply.Err? ==> o.ledger == l && o.paid.None?
    ensures o.reply.Ok? && approve ==>
              && o.reply == Ok(Completed)
              && o.paid == Some(id)
              && o.ledger.txs == l.txs[id := l.txs[id].(status := Completed)]
              && o.ledger.users == Credit(l.users, l.txs[id].owner, l.txs[id].amountOutput)
    ensures o.reply.Ok? && !approve ==>
              && o.reply == Ok(Rejected)
              && o.paid.None?
              && o.ledger.users == l.users
              && o.ledger.txs == l.txs[id := l.txs[id].(status := Rejected, rejectionReason := Some(ReasonOrDefault(reason)))]
  {
    match AdminGate(l, admin)
    case Some(e) => Refuse(l, e)
    case None =>
      if !(id in l.txs && l.txs[id].status == PendingReview) then Refuse(l, NotFound)
      else
        var tx := l.txs[id];
        if approve then
          Outcome(Ok(Completed),
                  l.(txs := l.txs[id := tx.(status := Completed)],
                     users := Credit(l.users, tx.owner, tx.amountOutput)),
                  Some(id))
        else
          Outcome(Ok(Rejected),
                  l.(txs := l.txs[id := tx.(status := Rejected, rejectionReason := Some(ReasonOrDefault(reason)))]),
                  None)
  }

  // ---------------------------------------------------------------------
  // Exchange rate
  // ---------------------------------------------------------------------

  /** `update_rate`: an admin replaces the rate singleton. Stored
      transactions keep the output amounts they were created with. */
  function UpdateRate(l: Ledger, admin: UserId, risToVes: real): (o: Outcome<Rate>)
    ensures o.paid.None? && o.ledger.txs == l.txs && o.ledger.users == l.users && o.ledger.nextId == l.nextId
    ensures o.reply.Ok? <==> IsAdmin(l, admin)
    ensures o.reply.Err? ==> o.ledger == l
    ensures o.reply.Ok? ==>
              && o.reply.value == Rate(risToVes, Some(admin))
              && o.ledger.rate == Some(o.reply.value)
              && RateInForce(o.ledger) == risToVes
  {
    match AdminGate(l, admin)
    case Some(e) => Refuse(l, e)
    case None =>
      var rate := Rate(risToVes, Some(admin));
      Outcome(Ok(rate), l.(rate := Some(rate)), None)
  }

  /** `get_rate`: the stored rate, storing the 78.0 default on first read. */
  function ReadRate(l: Ledger): (o: Outcome<Rate>)
    ensures o.paid.None? && o.ledger.txs == l.txs && o.ledger.users == l.users && o.ledger.nextId == l.nextId
    ensures o.reply.Ok? && o.reply.value.risToVes == RateInForce(l)
    ensures o.ledger.rate == Some(o.reply.value)
    ensures RateInForce(o.ledger) == RateInForce(l)
    ensures l.rate.Some? ==> o.ledger == l
  {
    match l.rate
    case Some(rate) => Outcome(Ok(rate), l, None)
    case None =>
      var rate := Rate(DefaultRate, None);
      Outcome(Ok(rate), l.(rate := Some(rate)), None)
  }

  /** The rate a withdrawal snapshots is the rate `get_rate` reports, which
      is 78.0 until an admin stores one. */
  lemma WithdrawalSnapshotsTheRateRead(l: Ledger, caller: UserId, amountRis: real)
    ensures l.rate.None? ==> ReadRate(l).reply == Ok(Rate(DefaultRate, None))
    ensures var o := CreateWithdrawal(l, caller, amountRis);
              o.reply.Ok? ==> o.ledger.txs[o.reply.value].amountOutput == amountRis * ReadRate(l).reply.value.risToVes
  {
  }

  /** A rate an admin sets is the rate read back, and the rate the next
      withdrawal is converted at. */
  lemma SetRateIsReadBack(l: Ledger, admin: UserId, risToVes: real, caller: UserId, amountRis: real)
    requires IsAdmin(l, admin)
    ensures var l1 := UpdateRate(l, admin, risToVes).ledger;
              && ReadRate(l1) == Outcome(Ok(Rate(risToVes, Some(admin))), l1, None)
              && var o := CreateWithdrawal(l1, caller, amountRis);
                 o.reply.Ok? ==> o.ledger.txs[o.reply.value].amountOutput == amountRis * risToVes
  {
  }
}

=== FILE: traces.dfy ===
/** Sequences of route calls against one ledger, and what holds along any
    of them: no transaction is paid out twice, the fields fixed at creation
    never change, a completed transaction stays completed, and balances
    stay non-negative, either when amounts and rates are or, for any
    amounts and rates, when payments reference only recharges. */
module Traces {

  import opened Records
  import opened Settlement

  /** One call of a settlement route, with the inputs the model takes from
      outside (the provider's verdicts, the WhatsApp selection). */
  datatype Event =
    | Withdraw(caller: UserId, amountRis: real)
    | ProcessPayout(admin: UserId, id: TxId, proof: string)
    | WhatsAppImage(target: Option<TxId>, proof: string)
    | CreatePix(caller: UserId, amount: real, intent: PixIntent)
    | Poll(caller: UserId, id: TxId, approved: bool)
    | Proof(caller: UserId, id: TxId, proof: string, approved: bool)
    | Webhook(notice: Notice)
    | Review(admin: UserId, id: TxId, approve: bool, reason: Option<string>)
    | SetRate(admin: UserId, risToVes: real)
    | GetRate

  datatype Transition = Transition(ledger: Ledger, paid: Option<TxId>)

  function Step(l: Ledger, e: Event): Transition {
    match e
    case Withdraw(caller, amountRis) =>
      var o := CreateWithdrawal(l, caller, amountRis); Transition(o.ledger, o.paid)
    case ProcessPayout(admin, id, proof) =>
      var o := ProcessWithdrawal(l, admin, id, proof); Transition(o.ledger, o.paid)
    case WhatsAppImage(target, proof) =>
      var o := WhatsAppProof(l, target, proof); Transition(o.ledger, o.paid)
    case CreatePix(caller, amount, intent) =>
      var o := CreatePixRecharge(l, caller, amount, intent); Transition(o.ledger, o.paid)
    case Poll(caller, id, approved) =>
      var o := PollPixStatus(l, caller, id, approved); Transition(o.ledger, o.paid)
    case Proof(caller, id, proof, approved) =>
      var o := SubmitProof(l, caller, id, proof, approved); Transition(o.ledger, o.paid)
    case Webhook(notice) =>
      var o := ProviderWebhook(l, notice); Transition(o.ledger, o.paid)
    case Review(admin, id, approve, reason) =>
      var o := ReviewRecharge(l, admin, id, approve, reason); Transition(o.ledger, o.paid)
    case SetRate(admin, risToVes) =>
      var o := UpdateRate(l, admin, risToVes); Transition(o.ledger, o.paid)
    case GetRate =>
      var o := ReadRate(l); Transition(o.ledger, o.paid)
  }

  /** The final ledger of a sequence of calls, and the transactions paid
      out along the way, in order. */
  datatype Trace = Trace(ledger: Ledger, paid: seq<TxId>)

  function Run(l: Ledger, es: seq<Event>): Trace
    decreases |es|
  {
    if |es| == 0 then Trace(l, [])
    else
      var t := Step(l, es[0]);
      var rest := Run(t.ledger, es[1..]);
      Trace(rest.ledger, (if t.paid.Some? then [t.paid.value] else []) + rest.paid)
  }

  /** What a later state keeps of an earlier transaction: who owns it, its
      kind, both amounts, and completion. */
  predicate Frozen(before: Tx, after: Tx) {
    && after.owner == before.owner
    && after.kind == before.kind
    && after.amountInput == before.amountInput
    && after.amountOutput == before.amountOutput
    && (before.status == Completed ==> after.status == Completed)
  }

  /** No transaction or user disappears and every transaction is frozen. */
  predicate Preserves(l: Ledger, l': Ledger) {
    && l.txs.Keys <= l'.txs.Keys
    && l.users.Keys == l'.users.Keys
    && forall id :: id in l.txs ==> Frozen(l.txs[id], l'.txs[id])
  }

  lemma PreservesTransitive(a: Ledger, b: Ledger, c: Ledger)
    requires Preserves(a, b) && Preserves(b, c)
    ensures Preserves(a, c)
  {
  }

  /** One call preserves the ledger's history, and when it pays out a
      transaction, that transaction was not completed before and is after. */
  lemma StepPreserves(l: Ledger, e: Event)
    requires Fresh(l)
    ensures Fresh(Step(l, e).ledger)
    ensures Preserves(l, Step(l, e).ledger)
    ensures Step(l, e).paid.Some? ==>
              var id := Step(l, e).paid.value;
              && id in l.txs && l.txs[id].status != Completed
              && id in Step(l, e).ledger.txs && Step(l, e).ledger.txs[id].status == Completed
  {
  }

  /** Money moves only as the paid-out log says: a paying call credits the
      transaction's owner with its output amount, a withdrawal debits its
      caller by its amount, and nothing else changes any balance. */
  lemma StepMovesMoneyOnlyAsLogged(l: Ledger, e: Event)
    ensures var t := Step(l, e);
              t.paid.Some? ==>
                t.paid.value in l.txs &&
                t.ledger.users == Credit(l.users, l.txs[t.paid.value].owner, l.txs[t.paid.value].amountOutput)
    ensures var t := Step(l, e);
              t.paid.None? && !e.Withdraw? ==> t.ledger.users == l.users
    ensures e.Withdraw? ==>
              var t := Step(l, e);
              t.paid.None? &&
              (t.ledger.users == l.users || t.ledger.users == Credit(l.users, e.caller, -e.amountRis))
  {
  }

  /** No repeated element. */
  predicate NoRepeats(s: seq<TxId>) {
    forall i, j :: 0 <= i < j < |s| ==> s[i] != s[j]
  }

  lemma NoRepeatsCons(x: TxId, s: seq<TxId>)
    requires x !in s && NoRepeats(s)
    ensures NoRepeats([x] + s)
  {
    forall i, j | 0 <= i < j < |[x] + s|
      ensures ([x] + s)[i] != ([x] + s)[j]
    {
      assert ([x] + s)[j] == s[j - 1];
      if i > 0 {
        assert ([x] + s)[i] == s[i - 1];
      }
    }
  }

  /** Along any sequence of calls, from a ledger whose ids are fresh: each
      transaction is paid out at most once; a transaction already completed
      at the start is never paid; every paid transaction ends completed;
      and the ledger's history is preserved. */
  lemma {:induction false} RunPaysEachAtMostOnce(l: Ledger, es: seq<Event>)
    requires Fresh(l)
    ensures Fresh(Run(l, es).ledger)
    ensures Preserves(l, Run(l, es).ledger)
    ensures NoRepeats(Run(l, es).paid)
    ensures forall id :: id in Run(l, es).paid && id in l.txs ==> l.txs[id].status != Completed
    ensures forall id :: id in Run(l, es).paid ==>
              id in Run(l, es).ledger.txs && Run(l, es).ledger.txs[id].status == Completed
    decreases |es|
  {
    if |es| > 0 {
      var t := Step(l, es[0]);
      StepPreserves(l, es[0]);
      RunPaysEachAtMostOnce(t.ledger, es[1..]);
      var rest := Run(t.ledger, es[1..]);
      PreservesTransitive(l, t.ledger, rest.ledger);
      if t.paid.Some? {
        assert t.paid.value !in rest.paid;
        NoRepeatsCons(t.paid.value, rest.paid);
        assert Run(l, es).paid == [t.paid.value] + rest.paid;
      } else {
        assert Run(l, es).paid == rest.paid;
      }
    }
  }

  /** The amounts fixed when a transaction is created -- in particular a
      withdrawal's output snapshotted from the rate -- survive every later
      call, rate replacements included. */
  lemma {:induction false} AmountsSurviveAnyRun(l: Ledger, es: seq<Event>, id: TxId)
    requires Fresh(l) && id in l.txs
    ensures id in Run(l, es).ledger.txs
    ensures Run(l, es).ledger.txs[id].amountOutput == l.txs[id].amountOutput
    ensures Run(l, es).ledger.txs[id].amountInput == l.txs[id].amountInput
  {
    RunPaysEachAtMostOnce(l, es);
  }

  /** A withdrawal keeps the output computed from the rate at its creation,
      whatever rates are set afterwards. */
  lemma WithdrawalSnapshotSurvivesRateChanges(l: Ledger, caller: UserId, amountRis: real, later: seq<Event>)
    requires Fresh(l)
    requires caller in l.users && amountRis <= l.users[caller].balance
    ensures var o := CreateWithdrawal(l, caller, amountRis);
              var id := o.reply.value;
              id in Run(o.ledger, later).ledger.txs &&
              Run(o.ledger, later).ledger.txs[id].amountOutput == amountRis * RateInForce(l)
  {
    var o := CreateWithdrawal(l, caller, amountRis);
    AmountsSurviveAnyRun(o.ledger, later, o.reply.value);
  }

  // ---------------------------------------------------------------------
  // Solvency
  // ---------------------------------------------------------------------

  /** Every balance, stored output amount and rate is non-negative, and
      ids are fresh. */
  predicate Valid(l: Ledger) {
    && Fresh(l)
    && (forall u :: u in l.users ==> l.users[u].balance >= 0.0)
    && (forall id :: id in l.txs ==> l.txs[id].amountOutput >= 0.0)
    && RateInForce(l) >= 0.0
  }

  /** The inputs the server never checks the sign of: the withdrawal
      amount and a new rate. */
  predicate Sane(e: Event) {
    match e
    case Withdraw(_, amountRis) => amountRis >= 0.0
    case SetRate(_, risToVes) => risToVes >= 0.0
    case _ => true
  }

  /** Crediting a non-negative amount, or debiting no more than the
      balance, keeps every balance non-negative. */
  lemma CreditKeepsSolvent(users: map<UserId, Account>, u: UserId, amount: real)
    requires forall v :: v in users ==> users[v].balance >= 0.0
    requires amount >= 0.0 || (u in users && users[u].balance + amount >= 0.0)
    ensures forall v :: v in Credit(users, u, amount) ==> Credit(users, u, amount)[v].balance >= 0.0
  {
  }

  /** A call that inserts nothing, keeps the stored amounts and either
      leaves balances alone or credits a stored output amount keeps the
      ledger valid. */
  lemma SettlingKeepsValid(l: Ledger, l': Ledger, paid: Option<TxId>)
    requires Valid(l)
    requires l'.txs.Keys == l.txs.Keys && l'.nextId == l.nextId
    requires forall id :: id in l.txs ==> l'.txs[id].amountOutput == l.txs[id].amountOutput
    requires RateInForce(l') == RateInForce(l)
    requires paid.None? ==> l'.users == l.users
    requires paid.Some? ==>
               paid.value in l.txs &&
               l'.users == Credit(l.users, l.txs[paid.value].owner, l.txs[paid.value].amountOutput)
    ensures Valid(l')
  {
    if paid.Some? {
      CreditKeepsSolvent(l.users, l.txs[paid.value].owner, l.txs[paid.value].amountOutput);
    }
  }

  lemma WithdrawKeepsValid(l: Ledger, caller: UserId, amountRis: real)
    requires Valid(l) && amountRis >= 0.0
    ensures Valid(CreateWithdrawal(l, caller, amountRis).ledger)
  {
    var o := CreateWithdrawal(l, caller, amountRis);
    if o.reply.Ok? {
      CreditKeepsSolvent(l.users, caller, -amountRis);
      assert amountRis * RateInForce(l) >= 0.0;
      assert forall id :: id in o.ledger.txs ==> id in l.txs || id == o.reply.value;
    }
  }

  lemma CreatePixKeepsValid(l: Ledger, caller: UserId, amount: real, intent: PixIntent)
    requires Valid(l)
    ensures Valid(CreatePixRecharge(l, caller, amount, intent).ledger)
  {
    var o := CreatePixRecharge(l, caller, amount, intent);
    if o.reply.Ok? {
      assert forall id :: id in o.ledger.txs ==> id in l.txs || id == o.reply.value;
    }
  }

  lemma StepKeepsValid(l: Ledger, e: Event)
    requires Valid(l) && Sane(e)
    ensures Valid(Step(l, e).ledger)
  {
    match e
    case Withdraw(caller, amountRis) => WithdrawKeepsValid(l, caller, amountRis);
    case CreatePix(caller, amount, intent) => CreatePixKeepsValid(l, caller, amount, intent);
    case ProcessPayout(admin, id, proof) =>
      var o := ProcessWithdrawal(l, admin, id, proof);
      SettlingKeepsValid(l, o.ledger, o.paid);
    case WhatsAppImage(target, proof) =>
      var o := WhatsAppProof(l, target, proof);
      SettlingKeepsValid(l, o.ledger, o.paid);
    case Poll(caller, id, approved) =>
      var o := PollPixStatus(l, caller, id, approved);
      SettlingKeepsValid(l, o.ledger, o.paid);
    case Proof(caller, id, proof, approved) =>
      var o := SubmitProof(l, caller, id, proof, approved);
      SettlingKeepsValid(l, o.ledger, o.paid);
    case Webhook(notice) =>
      var o := ProviderWebhook(l, notice);
      SettlingKeepsValid(l, o.ledger, o.paid);
    case Review(admin, id, approve, reason) =>
      var o := ReviewRecharge(l, admin, id, approve, reason);
      SettlingKeepsValid(l, o.ledger, o.paid);
    case SetRate(admin, risToVes) =>
    case GetRate =>
  }

  /** With non-negative withdrawal amounts and rates, no sequence of calls
      drives a balance below zero. */
  lemma {:induction false} RunKeepsValid(l: Ledger, es: seq<Event>)
    requires Valid(l)
    requires forall i :: 0 <= i < |es| ==> Sane(es[i])
    ensures Valid(Run(l, es).ledger)
    ensures forall u :: u in Run(l, es).ledger.users ==> Run(l, es).ledger.users[u].balance >= 0.0
    decreases |es|
  {
    if |es| > 0 {
      StepKeepsValid(l, es[0]);
      RunKeepsValid(Step(l, es[0]).ledger, es[1..]);
    }
  }

  // ---------------------------------------------------------------------
  // Solvency for any amounts and rates
  // ---------------------------------------------------------------------

  /** What every transaction this server stores satisfies: a recharge's
      output is non-negative, and a withdrawal carries no provider payment
      id and never waits for review. */
  predicate WellFormed(tx: Tx) {
    && (tx.kind == Recharge ==> tx.amountOutput >= 0.0)
    && (tx.kind == Withdrawal ==> tx.paymentId.None? && tx.status != PendingReview)
  }

  /** Ids are fresh, balances non-negative and every transaction well formed.
      Rates and withdrawal outputs may have any sign. */
  predicate Consistent(l: Ledger) {
    && Fresh(l)
    && (forall u :: u in l.users ==> l.users[u].balance >= 0.0)
    && (forall id :: id in l.txs ==> WellFormed(l.txs[id]))
  }

  /** A provider notification can only reference a transaction this server
      handed to the provider, and the server hands over only recharge ids
      as `external_reference`. A webhook naming a withdrawal needs a payment
      created elsewhere. */
  predicate ReferencesRecharge(l: Ledger, e: Event) {
    match e
    case Webhook(n) =>
      n.externalRef.Some? && n.externalRef.value in l.txs ==> l.txs[n.externalRef.value].kind == Recharge
    case _ => true
  }

  /** Every webhook along the calls references a recharge, in the ledger
      it is delivered to. */
  predicate OwnReferences(l: Ledger, es: seq<Event>)
    decreases |es|
  {
    |es| == 0 || (ReferencesRecharge(l, es[0]) && OwnReferences(Step(l, es[0]).ledger, es[1..]))
  }

  /** A call that inserts nothing, keeps every transaction well formed and
      either moves no balance or credits a recharge's output keeps the
      ledger consistent. */
  lemma SettlingKeepsConsistent(l: Ledger, l': Ledger, paid: Option<TxId>)
    requires Consistent(l)
    requires l'.txs.Keys == l.txs.Keys && l'.nextId == l.nextId
    requires forall id :: id in l.txs ==> WellFormed(l'.txs[id])
    requires paid.None? ==> l'.users == l.users
    requires paid.Some? ==>
               && paid.value in l.txs && l.txs[paid.value].kind == Recharge
               && l'.users == Credit(l.users, l.txs[paid.value].owner, l.txs[paid.value].amountOutput)
    ensures Consistent(l')
  {
    if paid.Some? {
      CreditKeepsSolvent(l.users, l.txs[paid.value].owner, l.txs[paid.value].amountOutput);
    }
  }

  /** A withdrawal of any amount the balance covers, at any rate, keeps the
      ledger consistent: the debit never exceeds the balance. */
  lemma AnyWithdrawKeepsConsistent(l: Ledger, caller: UserId, amountRis: real)
    requires Consistent(l)
    ensures Consistent(CreateWithdrawal(l, caller, amountRis).ledger)
  {
    var o := CreateWithdrawal(l, caller, amountRis);
    if o.reply.Ok? {
      CreditKeepsSolvent(l.users, caller, -amountRis);
      assert forall id :: id in o.ledger.txs ==> id in l.txs || id == o.reply.value;
    }
  }

  lemma CreatePixKeepsConsistent(l: Ledger, caller: UserId, amount: real, intent: PixIntent)
    requires Consistent(l)
    ensures Consistent(CreatePixRecharge(l, caller, amount, intent).ledger)
  {
    var o := CreatePixRecharge(l, caller, amount, intent);
    if o.reply.Ok? {
      assert forall id :: id in o.ledger.txs ==> id in l.txs || id == o.reply.value;
    }
  }

  /** Without any sign assumption, one call keeps the ledger consistent,
      provided a webhook references a recharge; and whatever it pays out is
      a recharge. */
  lemma StepKeepsConsistent(l: Ledger, e: Event)
    requires Consistent(l) && ReferencesRecharge(l, e)
    ensures Consistent(Step(l, e).ledger)
    ensures Step(l, e).paid.Some? ==>
              Step(l, e).paid.value in l.txs && l.txs[Step(l, e).paid.value].kind == Recharge
  {
    match e
    case Withdraw(caller, amountRis) => AnyWithdrawKeepsConsistent(l, caller, amountRis);
    case CreatePix(caller, amount, intent) => CreatePixKeepsConsistent(l, caller, amount, intent);
    case ProcessPayout(admin, id, proof) =>
      var o := ProcessWithdrawal(l, admin, id, proof);
      SettlingKeepsConsistent(l, o.ledger, o.paid);
    case WhatsAppImage(target, proof) =>
      var o := WhatsAppProof(l, target, proof);
      SettlingKeepsConsistent(l, o.ledger, o.paid);
    case Poll(caller, id, approved) =>
      var o := PollPixStatus(l, caller, id, approved);
      SettlingKeepsConsistent(l, o.ledger, o.paid);
    case Proof(caller, id, proof, approved) =>
      var o := SubmitProof(l, caller, id, proof, approved);
      SettlingKeepsConsistent(l, o.ledger, o.paid);
    case Webhook(notice) =>
      var o := ProviderWebhook(l, notice);
      SettlingKeepsConsistent(l, o.ledger, o.paid);
    case Review(admin, id, approve, reason) =>
      var o := ReviewRecharge(l, admin, id, approve, reason);
      SettlingKeepsConsistent(l, o.ledger, o.paid);
    case SetRate(admin, risToVes) =>
    case GetRate =>
  }

  /** For any withdrawal amounts and rates, no sequence of calls whose
      webhooks reference recharges drives a balance below zero. */
  lemma {:induction false} RunKeepsConsistent(l: Ledger, es: seq<Event>)
    requires Consistent(l) && OwnReferences(l, es)
    ensures Consistent(Run(l, es).ledger)
    ensures forall u :: u in Run(l, es).ledger.users ==> Run(l, es).ledger.users[u].balance >= 0.0
    decreases |es|
  {
    if |es| > 0 {
      StepKeepsConsistent(l, es[0]);
      RunKeepsConsistent(Step(l, es[0]).ledger, es[1..]);
    }
  }
}
